=== FILE: README.md ===
# Nutrition-plan controller: a Dafny model

This project models the sequential core of the nutrition-plan optimiser's front end and the server's `Constraint` value object:

- **Constraint validation** (`src/constraint.py`). A frozen record whose construction checks min/max, then the nutrient, then the unit, then the value. The first failing check raises.
- **Canonical controller** (`static/ts/script.ts`):
  - repeatable rows, added by cloning a template and removed through the enclosing row;
  - the unit-option state machine of a constraint row;
  - extraction of foods, the objective and constraints into the request payload;
  - the data handed to the two charts;
  - clearing the chart mounts;
  - dispatch on the optimiser's status.
- **Earlier controller** (`static/script.js`). Its row operations, its different unit-option handler and the three row mappings inside `submitForm`. It is modelled beside the canonical controller so the two can be compared.

The document is abstract (`Dom`):
- A container id maps to a sequence of rows.
- A row maps a control's `name` to the control. A control has a value, its option values and a disabled flag.
- Row templates map an id to the row they clone. Option templates map an id to the option values they clone.
- Chart mounts map an id to opaque child nodes.
- A control the user acted on is known by the row that encloses it, as a position inside a container. This stands for what `closest("tr")` finds.

Exceptions are `Result` failures. The canonical `updateUnitOptions` can throw after it has already changed the select. That case is a `Partial` outcome, which holds the state left behind together with the exception.

Modules, one per file: `Results`, `Dom`, `ConstraintValidation`, `RowTemplates`, `UnitOptions`, `FormExtraction`, `ResultRendering`, `LegacyController`.

Edge cases of the code that the model keeps:
- **Missing option template.** The canonical unit handler empties the unit select before it looks up the option template, so a missing template leaves an empty select. In the non-energy branch that select is also already unlocked.
- **Missing container.** Extraction from a missing food or constraint container yields an empty list, not an error, because `querySelectorAll` finds no rows.
- **Removing a row.** `removeItem` refuses a null button before it looks for the enclosing row.
- **Constraint value.** `Constraint.value` is annotated `int`, but nothing enforces the annotation and the client sends `parseFloat` results. The model takes the value as a Python number: an exact finite value, NaN, or plus or minus infinity. Since the check is `value < 0`, 0.5, NaN and plus infinity are accepted, while -0.5 and minus infinity are refused.

## Model

| member | source | states |
|---|---|---|
| ConstraintValidation.NewConstraint | src/constraint.py:16-50 | construction succeeds exactly when min/max is in MIN_MAX, the nutrient is in the nutrient set, the unit is in UNITS and the value is present and not below zero in Python's comparison (a finite int or float that is at least 0, NaN, or plus infinity); otherwise the error is the first failing check in the order min/max, nutrient, unit, value, carrying the offending value |
| ConstraintValidation.ValidRoundTrip | src/constraint.py:6-20 | every constraint meeting all four checks is rebuilt unchanged from its own fields |
| ConstraintValidation.ZeroIsAccepted | src/constraint.py:46-50 | zero and 0.5 pass the value check; -0.5 and -1 are refused with the value error |
| ConstraintValidation.FloatSpecials | src/constraint.py:46-50 | NaN and plus infinity pass the value check, because neither compares below zero; minus infinity is refused with the value error |
| ConstraintValidation.UnitNotCoupledToNutrient | src/constraint.py:39-44 | unit "energy" on nutrient "protein" is accepted: the unit check does not look at the nutrient |
| ConstraintValidation.FirstFailureWins | src/constraint.py:16-20 | with several failing checks the earliest one is reported |
| Dom.Rows | static/ts/script.ts:96 | the rows of a container, in order; a missing container yields no rows rather than an error |
| Dom.FirstRow | static/ts/script.ts:156 | the first row of a container when it has one, and nothing when it is empty or missing |
| Dom.Closest | static/ts/script.ts:25 | the enclosing row of a control is found exactly when the control has one that exists in the document, and it is that row |
| Dom.ReplaceOptions | static/ts/script.ts:53-80 | replacing a select's options installs exactly the new options, keeps the lock state, and selects the first new option, or leaves the value "" when there are none |
| RowTemplates.AddItem | static/ts/script.ts:3-18 | a missing template fails first, then a missing target; on success the target gains exactly one row, the template's, at the end, earlier rows and every other part of the document unchanged |
| RowTemplates.RemoveItem | static/ts/script.ts:20-32 | a null button fails, then a control with no enclosing row; on success that container is one row shorter, rows before the removed one keep their places, rows after it shift down by one, nothing else changes |
| RowTemplates.RemoveItemLosesOnlyThatRow | static/ts/script.ts:25-31 | the container's rows, as a multiset, lose exactly the removed row |
| RowTemplates.AddThenRemoveRestores | static/ts/script.ts:3-32 | removing the row just added gives back the original document |
| RowTemplates.AddTwiceKeepsOrder | static/ts/script.ts:16-17 | two adds append their template rows in call order |
| UnitOptions.UpdateUnitRow | static/ts/script.ts:40-81 | missing nutrient select, then missing unit select, fail with the row untouched; otherwise the unit select gets the energy template's options and is locked, or the amount/ratio template's options and is unlocked, with the template's first option (or "" for an empty template) selected; a missing template leaves the select emptied (and unlocked in the non-energy branch); no other field changes |
| UnitOptions.UpdateUnitOptions | static/ts/script.ts:34-82 | no enclosing row fails with the document untouched; otherwise the row handler runs on the enclosing row, which is written back with whatever state the handler left, and nothing else changes |
| UnitOptions.StandardTransitions | static/ts/script.ts:53-81 | with the shipped templates, "energy" yields the single locked option energy, any other nutrient the unlocked options amount, ratio with amount selected |
| UnitOptions.UnitIsEnergyIffNutrientIsEnergy | static/ts/script.ts:53-81 | with the shipped templates, after the handler the unit is "energy" if and only if the nutrient is "energy" |
| UnitOptions.DependsOnlyOnNutrient | static/ts/script.ts:53-81 | with both option templates present, two rows with the same nutrient end with identical unit selects, whatever their unit selects held before |
| UnitOptions.Idempotent | static/ts/script.ts:53-81 | running the handler a second time gives the same row and the same outcome, failing runs included |
| UnitOptions.PathIndependent | static/ts/script.ts:53-81 | with both option templates present, after any series of nutrient picks the unit select is the one the last pick alone would give |
| FormExtraction.ReadFood | static/ts/script.ts:122-146 | a row missing any of the eight food fields fails; otherwise the name is copied verbatim and the other seven fields are the integer or decimal coercion of their texts |
| FormExtraction.ReadConstraint | static/ts/script.ts:202-211 | a row missing any of the four constraint fields fails; otherwise min/max, nutrient and unit are copied verbatim and the value is the decimal coercion of its text |
| FormExtraction.MapRows | static/ts/script.ts:98-147 | mapping rows succeeds exactly when every row reads, giving one result per row in row order; otherwise the error is that of the first row that fails |
| FormExtraction.GetFoodInformation | static/ts/script.ts:95-148 | one food record per row of the food container, in row order, each field the verbatim or coerced text of its input; zero rows give an empty list; any row missing a field fails the whole extraction |
| FormExtraction.GetObjective | static/ts/script.ts:155-177 | no objective row fails; otherwise only the first row is read, failing if it lacks sense or nutrient, and its two texts are copied verbatim |
| FormExtraction.GetConstraints | static/ts/script.ts:186-213 | one constraint record per row of the constraint container, in row order, fields copied or coerced; any row missing a field fails |
| FormExtraction.ObjectiveReadsFirstRowOnly | static/ts/script.ts:156-160 | replacing every objective row after the first leaves the objective unchanged |
| FormExtraction.MapRowsAppend | static/ts/script.ts:98 | mapping rows with one row appended yields the earlier results followed by that row's result |
| FormExtraction.MapRowsRemove | static/ts/script.ts:98 | mapping rows with one row taken out yields the results with that row's result taken out, order kept |
| FormExtraction.AddedFoodRowIsExtractedLast | static/ts/script.ts:95-98 | after adding a food row from a template, extraction yields the earlier records followed by the template row's record |
| FormExtraction.RemovedFoodRowIsNotExtracted | static/ts/script.ts:95-98 | after removing a food row, extraction yields the earlier records without that row's record, order kept |
| ResultRendering.Capitalise | static/ts/script.ts:241-242 | same length as the input; the first character upper-cased, the rest unchanged |
| ResultRendering.SliceLabelParts | static/ts/script.ts:247 | a slice label is the capitalised nutrient, " (", the gram total as interpolated (or "undefined"), then "g)" |
| ResultRendering.PfcChartData | static/ts/script.ts:229-264 | three slices in the order protein, fat, carbohydrates; slice i takes colour i of the palette, its size from the ratio for its nutrient and its label from the capitalised nutrient and its gram total; the subtitle reports the energy total |
| ResultRendering.PfcLabels | static/ts/script.ts:241-248 | the labels read "Protein (…g)", "Fat (…g)", "Carbohydrates (…g)" with the nutrient's gram total |
| ResultRendering.CapitalisedNutrients | static/ts/script.ts:241-242 | the three nutrient names capitalise to Protein, Fat, Carbohydrates |
| ResultRendering.FoodIntakesChartData | static/ts/script.ts:280-307 | one bar per food intake in the object's key order, category the food's name and value its intake |
| ResultRendering.IntakesRoundTrip | static/ts/script.ts:280-307 | pairing the chart's categories with its values gives back the food intakes exactly |
| ResultRendering.ClearCharts | static/ts/script.ts:322-339 | a missing food-intakes mount fails first, then a missing PFC mount, with nothing cleared; otherwise both mounts end empty and nothing else changes |
| ResultRendering.ClearChartsIdempotent | static/ts/script.ts:337-338 | clearing the charts a second time changes nothing |
| ResultRendering.Notice | static/ts/script.ts:347 | the notification is "status: ", the status, a line break, "message: ", then the message |
| ResultRendering.HandleOptimizationResult | static/ts/script.ts:341-349 | charts are drawn if and only if the status is "Optimal", with the PFC and intake data of the response; otherwise both mounts are cleared and the notification carries status and message, or a missing mount aborts with its error and no notification |
| ResultRendering.NoticeRoundTrip | static/ts/script.ts:347 | a single-line status and the message are recovered from the notification text |
| ResultRendering.OptimalExample | static/ts/script.ts:341-344 | the optimal response with ratios 30/20/50 and totals 150/44/250 g, 2000 kcal gives labels "Protein (150g)", "Fat (44g)", "Carbohydrates (250g)", subtitle "Total Energy: 2000 kcal", bars Chicken 2 and Rice 3 |
| ResultRendering.InfeasibleExample | static/ts/script.ts:345-347 | an "Infeasible" response empties both mounts and notifies "status: Infeasible\nmessage: no feasible solution" |
| ResultRendering.InfeasibleNotice | static/ts/script.ts:347 | the notification text joins "status: " and the status, a line break, "message: " and the message |
| LegacyController.AddItem | static/script.js:1-4 | succeeds exactly when template and target both resolve, appending the template's row as the target's last row with nothing else changed; otherwise a TypeError |
| LegacyController.RemoveItem | static/script.js:6-8 | succeeds exactly when the button has an enclosing row, removing exactly that row; otherwise a TypeError |
| LegacyController.RowOperationsAgree | static/script.js:1-8 | the earlier add and remove succeed exactly when the canonical ones do and then give the same document |
| LegacyController.UpdateUnitRow | static/script.js:10-31 | a missing nutrient or unit control is a TypeError; "energy" gives the single locked option energy; another nutrient unlocks the select and keeps options and selection when an amount option exists, else installs amount, ratio with amount selected; no other field changes |
| LegacyController.UpdateUnitOptions | static/script.js:10-31 | no enclosing row or a missing control is a TypeError with nothing changed; otherwise only the enclosing row is replaced by the handler's result |
| LegacyController.KeepsPriorUnitChoice | static/script.js:21-30 | for a non-energy nutrient with an amount option present, the selected unit and the menu survive |
| LegacyController.UnitIsEnergyIffNutrientIsEnergy | static/script.js:18-30 | from a standard menu with one of its options selected, the unit ends "energy" if and only if the nutrient is "energy" |
| LegacyController.VariantsAgreeOnMenus | static/script.js:18-30 | from either standard menu, the earlier and the canonical handlers show the same options and lock state |
| LegacyController.VariantsDifferOnPriorChoice | static/script.js:21-30 | with "ratio" chosen, picking fat keeps "ratio" in the earlier handler, while the canonical one selects "amount" |
| LegacyController.NotDeterminedByNutrient | static/script.js:21-30 | two rows showing the same nutrient can end with different units under the earlier handler |
| LegacyController.ReadFood | static/script.js:36-53 | a row missing a food field is a TypeError; otherwise the same record as the canonical reader |
| LegacyController.ReadObjective | static/script.js:57-62 | a row missing either objective field is a TypeError; otherwise problem and nutrient are copied verbatim |
| LegacyController.ReadConstraint | static/script.js:66-73 | a row missing a constraint field is a TypeError; otherwise min/max, nutrient and unit are copied verbatim and the value is decimal-coerced |
| LegacyController.ExtractFoods | static/script.js:34-53 | one food record per row in row order, or a TypeError if any row lacks a field |
| LegacyController.ExtractObjectives | static/script.js:55-62 | every objective row is read, one entry per row in row order, or a TypeError if any row lacks a field |
| LegacyController.ExtractConstraints | static/script.js:64-73 | one constraint record per row in row order, or a TypeError if any row lacks a field |
| LegacyController.ConstraintExtractionAgrees | static/script.js:64-73 | when each row's canonical and earlier nutrient fields hold the same control, the earlier and canonical constraint extractions succeed together and agree field by field |
| LegacyController.FoodExtractionAgrees | static/script.js:34-53 | earlier and canonical food extraction succeed together and then give the same records |
| LegacyController.ObjectiveCardinalityDiffers | static/script.js:55-62 | extra objective rows add one entry each to the earlier objective list and leave the canonical objective unchanged |

## Left out

- Submitting the form is left out: `fetch`, `response.json()` and the await inside `submitForm`. These are network I/O. Overlapping submits are a concurrency matter outside a sequential model.
- The chart library and `alert` are foreign calls. The model computes the data handed to `Highcharts.chart` and the notification text, but not the rendering into the mounts.
- HandleOptimizationResult: the "Optimal" branch never fails in the model. `Highcharts.chart` throws when its mount id is missing, and the food-intakes draw can throw after the PFC chart has been drawn, leaving a partial render. These failures belong to the chart library and are not modelled.
- The numeric meaning of `parseInt` and `parseFloat` is left out. A coerced field holds the coercion applied to its text, `ParseInt(text)` or `ParseFloat(text)`, without saying which number or NaN that denotes.
- Numbers in the response are identified by their JavaScript string form, so their arithmetic is left out. Only their interpolation into labels and the subtitle matters here.
- JSON serialisation of the request and response, and the optimiser behind the endpoint, are left out.
- The nutrient set of the server's food model is not part of this model. The validator takes it as a parameter, and the examples use energy, protein, fat and carbohydrates.
- `static/js/main.js` is not part of this model. It only wires event listeners to modules that are not modelled.
- AddItem: a row template clones exactly one row. The content of a real template may hold no `<tr>` or several, which would add zero or several rows; that is not modelled.
- AddItem: containers, mounts and templates are separate id tables. A target id that names a chart mount counts as not found, where the browser would append the clone to that element.
- Row templates and option templates live in separate tables. An id that resolves to an element of the wrong kind (`.content` undefined) is not modelled.
- `querySelectorAll("#id tr")` is modelled as the container's own rows. Rows nested inside rows are not modelled.
- Closest: rows outside the modelled containers are not modelled. A control whose `<tr>` lies elsewhere in the page counts as having no enclosing row, so `RemoveItem` refuses it, where the browser would remove that row.
- ReplaceOptions: an option template's `selected` attribute and disabled options are not modelled. The first option is taken as selected, while a browser selects the first option that is not disabled, or the one marked `selected`.
- The source's exception messages are left out. Each exception is identified by its kind and the id it names.
- NewConstraint: a value that is not a number, such as a string, is not modelled. Python raises `TypeError` when it compares one with 0, and that is not a `ValueError`.
- `toUpperCase` is modelled on ASCII letters only. The capitalised strings are fixed ASCII nutrient names.
- FoodIntakesChartData takes the response's food-intakes object as its own properties in enumeration order. JavaScript lists keys that look like array indices first, in ascending order, and that reordering is not modelled.
- FoodIntakesChartData does not require distinct keys. A JavaScript object cannot hold a key twice, so a list with a repeated food name stands for no real response; the model would draw one bar per entry.
- The earlier controller writes the raw response into a `#result` element. That is display only and is left out.

=== FILE: constraint_validation.dfy ===
/** The server-side `Constraint` value object: a frozen record whose
    construction runs four checks in a fixed order and raises on the first
    that fails. Being a datatype, a constructed `Constraint` is immutable, as
    the frozen dataclass is. */
module ConstraintValidation {
  import opened Results

  const MinMax: seq<string> := ["min", "max"]
  const Units: seq<string> := ["amount", "energy", "ratio"]

  /** The nutrient set the server uses. The validator takes the set as a
      parameter; this is the value the rest of the system assumes. */
  const StandardNutrients: set<string> := {"energy", "protein", "fat", "carbohydrates"}

  /** A Python number: an int or a finite float (both exact here), or one
      of the float specials. */
  datatype PyNumber = Finite(x: real) | NaN | PosInf | NegInf

  /** Python's `v < 0`: every comparison with NaN is false, and only minus
      infinity lies below zero among the specials. */
  predicate LessThanZero(v: PyNumber)
  {
    match v
    case Finite(x) => x < 0.0
    case NaN => false
    case PosInf => false
    case NegInf => true
  }

  datatype Constraint = Constraint(minMax: string, nutritionalComponent: string, unit: string, value: PyNumber)

  /** The `ValueError`s construction can raise, carrying the offending value. */
  datatype ValidationError =
    | InvalidMinMax(minMax: string)
    | InvalidNutritionalComponent(component: string)
    | InvalidUnit(unit: string)
    | NegativeValue(value: Option<PyNumber>)

  /** A constraint every check accepts. */
  predicate Valid(nutrients: set<string>, c: Constraint)
  {
    c.minMax in MinMax && c.nutritionalComponent in nutrients && c.unit in Units && !LessThanZero(c.value)
  }

  /** Construction: min/max, then the nutrient, then the unit, then the value
      (`None` stands for Python's `None`). The first failing check decides
      the error; construction succeeds exactly when all four hold. */
  function NewConstraint(nutrients: set<string>, minMax: string, component: string, unit: string, value: Option<PyNumber>)
    : (r: Result<Constraint, ValidationError>)
    ensures r.Success? <==>
              minMax in MinMax && component in nutrients && unit in Units && value.Some? &&
              (value.value.Finite? ==> value.value.x >= 0.0) && !value.value.NegInf?
    ensures r.Success? ==>
              r.value.minMax == minMax && r.value.nutritionalComponent == component &&
              r.value.unit == unit && r.value.value == value.value && Valid(nutrients, r.value)
    ensures minMax !in MinMax ==> r == Failure(InvalidMinMax(minMax))
    ensures minMax in MinMax && component !in nutrients ==> r == Failure(InvalidNutritionalComponent(component))
    ensures minMax in MinMax && component in nutrients && unit !in Units ==> r == Failure(InvalidUnit(unit))
    ensures minMax in MinMax && component in nutrients && unit in Units && (value.None? || LessThanZero(value.value)) ==>
              r == Failure(NegativeValue(value))
  {
    if minMax !in MinMax then Failure(InvalidMinMax(minMax))
    else if component !in nutrients then Failure(InvalidNutritionalComponent(component))
    else if unit !in Units then Failure(InvalidUnit(unit))
    else if value.None? || LessThanZero(value.value) then Failure(NegativeValue(value))
    else Success(Constraint(minMax, component, unit, value.value))
  }

  /** Every valid constraint can be rebuilt from its own fields: construction
      loses nothing and rejects no valid record. */
  lemma ValidRoundTrip(nutrients: set<string>, c: Constraint)
    requires Valid(nutrients, c)
    ensures NewConstraint(nutrients, c.minMax, c.nutritionalComponent, c.unit, Some(c.value)) == Success(c)
  {
  }

  /** Zero and fractional values are accepted; any negative value, however
      small, is refused. */
  lemma ZeroIsAccepted(nutrients: set<string>, minMax: string, component: string, unit: string)
    requires minMax in MinMax && component in nutrients && unit in Units
    ensures NewConstraint(nutrients, minMax, component, unit, Some(Finite(0.0))).Success?
    ensures NewConstraint(nutrients, minMax, component, unit, Some(Finite(0.5))).Success?
    ensures NewConstraint(nutrients, minMax, component, unit, Some(Finite(-0.5))) == Failure(NegativeValue(Some(Finite(-0.5))))
    ensures NewConstraint(nutrients, minMax, component, unit, Some(Finite(-1.0))) == Failure(NegativeValue(Some(Finite(-1.0))))
  {
  }

  /** The non-negativity test is `< 0`, so NaN and plus infinity pass it
      and only minus infinity among the float specials is refused. */
  lemma FloatSpecials(nutrients: set<string>, minMax: string, component: string, unit: string)
    requires minMax in MinMax && component in nutrients && unit in Units
    ensures NewConstraint(nutrients, minMax, component, unit, Some(NaN)).Success?
    ensures NewConstraint(nutrients, minMax, component, unit, Some(PosInf)).Success?
    ensures NewConstraint(nutrients, minMax, component, unit, Some(NegInf)) == Failure(NegativeValue(Some(NegInf)))
  {
  }

  /** The validator does not relate the unit to the nutrient: an energy unit
      on a protein constraint is accepted. */
  lemma UnitNotCoupledToNutrient()
    ensures NewConstraint(StandardNutrients, "min", "protein", "energy", Some(Finite(10.0))).Success?
  {
  }

  /** When several checks fail, the earliest in the order wins. */
  lemma FirstFailureWins()
    ensures NewConstraint(StandardNutrients, "less", "salt", "cups", None) == Failure(InvalidMinMax("less"))
    ensures NewConstraint(StandardNutrients, "max", "salt", "cups", None) == Failure(InvalidNutritionalComponent("salt"))
    ensures NewConstraint(StandardNutrients, "max", "fat", "cups", Some(Finite(-3.0))) == Failure(InvalidUnit("cups"))
  {
  }
}

=== FILE: dom.dfy ===
/** An abstract document: just enough of the DOM for the controller.

    A container (a `<tbody>` addressed by id) holds a sequence of rows; a row
    maps the `name` attribute of each control it contains to that control.
    Templates are addressed by id too: a row template holds the row it clones
    into a container, an option template holds the option values it clones
    into a `<select>`. Chart mount points are addressed by id and hold opaque
    child nodes. */
module Dom {
  import opened Results

  /** An `<input>` or a `<select>`. For a select, `value` is the value of the
      selected option and `options` the values of its options; an input has
      no options. */
  datatype Control = Control(value: string, options: seq<string>, disabled: bool)

  type Row = map<string, Control>

  /** The position of a row inside a container. */
  datatype RowRef = RowRef(container: string, index: nat)

  /** A control the user acted on, known through the row that encloses it
      (what `closest("tr")` would find), if any. */
  datatype Origin = Origin(enclosingRow: Option<RowRef>)

  datatype Document = Document(
    rowTemplates: map<string, Row>,
    optionTemplates: map<string, seq<string>>,
    containers: map<string, seq<Row>>,
    mounts: map<string, seq<string>>)

  /** The exceptions the controller throws. The canonical controller raises
      a distinct `Error` per missing element; the earlier controller only
      dereferences null, which is a `TypeError`. */
  datatype Error =
    | TemplateNotFound(templateId: string)
    | TargetNotFound(targetId: string)
    | ButtonNotFound
    | RowNotFound
    | NutrientSelectNotFound
    | UnitSelectNotFound
    | UnitTemplateNotFound(templateId: string)
    | InputsNotFound
    | ChartNotFound(mountId: string)
    | TypeError

  /** The outcome of a handler that may throw after it has already changed
      the document: the state left behind, and the exception, if any. */
  datatype Partial<T> = Partial(state: T, failure: Option<Error>)

  /** The rows `querySelectorAll("#id tr")` finds: a missing container
      yields no rows rather than an error. */
  function Rows(doc: Document, id: string): (r: seq<Row>)
    ensures id !in doc.containers ==> r == []
    ensures id in doc.containers ==> r == doc.containers[id]
  {
    if id in doc.containers then doc.containers[id] else []
  }

  /** The row `querySelector("#id tr")` finds: the first one, if any. */
  function FirstRow(doc: Document, id: string): (r: Option<Row>)
    ensures r.Some? <==> |Rows(doc, id)| > 0
    ensures r.Some? ==> r.value == Rows(doc, id)[0]
  {
    var rows := Rows(doc, id);
    if |rows| > 0 then Some(rows[0]) else None
  }

  predicate Resolves(doc: Document, r: RowRef)
  {
    r.container in doc.containers && r.index < |doc.containers[r.container]|
  }

  /** `closest("tr")`: the enclosing row of a control, when it is one that
      exists in the document. */
  function Closest(doc: Document, origin: Origin): (r: Option<RowRef>)
    ensures r.Some? <==> origin.enclosingRow.Some? && Resolves(doc, origin.enclosingRow.value)
    ensures r.Some? ==> r.value == origin.enclosingRow.value
  {
    match origin.enclosingRow
    case Some(ref) => if Resolves(doc, ref) then Some(ref) else None
    case None => None
  }

  function RowAt(doc: Document, r: RowRef): Row
    requires Resolves(doc, r)
  {
    doc.containers[r.container][r.index]
  }

  /** `after` differs from `before` at most in the row at `r`. */
  predicate OnlyRowChanged(before: Document, after: Document, r: RowRef)
    requires Resolves(before, r)
  {
    && after.containers.Keys == before.containers.Keys
    && |after.containers[r.container]| == |before.containers[r.container]|
    && (forall i :: 0 <= i < |before.containers[r.container]| && i != r.index ==>
          after.containers[r.container][i] == before.containers[r.container][i])
    && (forall id :: id in before.containers && id != r.container ==> after.containers[id] == before.containers[id])
    && after.rowTemplates == before.rowTemplates
    && after.optionTemplates == before.optionTemplates
    && after.mounts == before.mounts
  }

  /** The document with the row at `r` replaced by `row`; nothing else moves. */
  function SetRow(doc: Document, r: RowRef, row: Row): (d: Document)
    requires Resolves(doc, r)
    ensures Resolves(d, r) && RowAt(d, r) == row
    ensures OnlyRowChanged(doc, d, r)
  {
    var rows := doc.containers[r.container];
    doc.(containers := doc.containers[r.container := rows[r.index := row]])
  }

  /** Replacing the options of a select: with no option marked selected, the
      browser selects the first one, and an empty select has the value "". */
  function ReplaceOptions(c: Control, options: seq<string>): (r: Control)
    ensures r.options == options && r.disabled == c.disabled
    ensures |options| > 0 ==> r.value == options[0]
    ensures options == [] ==> r.value == ""
  {
    c.(options := options, value := if |options| > 0 then options[0] else "")
  }
}

=== FILE: form_extraction.dfy ===
/** Extraction of the form into the request payload, canonical controller.
    Every row of the food and constraint containers becomes one record, in
    row order; only the first row of the objective container is read.
    `parseInt` and `parseFloat` are left uninterpreted: a coerced field holds
    the coercion applied to the field's text, and whatever number (or NaN)
    that denotes is forwarded unchecked. */
module FormExtraction {
  import opened Results
  import opened Dom
  import RowTemplates

  datatype Parsed = ParseInt(source: string) | ParseFloat(source: string)

  datatype FoodInformation = FoodInformation(
    name: string,
    gramsPerUnit: Parsed,
    minimumIntake: Parsed,
    maximumIntake: Parsed,
    energy: Parsed,
    protein: Parsed,
    fat: Parsed,
    carbohydrates: Parsed)

  datatype Objective = Objective(sense: string, nutrient: string)

  datatype Constraint = Constraint(minMax: string, nutrient: string, unit: string, value: Parsed)

  const FoodContainer := "food-inputs"
  const ObjectiveContainer := "objective-inputs"
  const ConstraintContainer := "constraint-inputs"

  const FoodFields: seq<string> := [
    "food-name", "food-grams-per-unit", "food-minimum-intake", "food-maximum-intake",
    "food-energy", "food-protein", "food-fat", "food-carbohydrates"]
  const ObjectiveFields: seq<string> := ["objective-sense", "objective-nutrient"]
  const ConstraintFields: seq<string> := [
    "constraint-min-max", "constraint-nutrient", "constraint-unit", "constraint-value"]

  predicate HasFields(row: Row, fields: seq<string>)
  {
    forall i :: 0 <= i < |fields| ==> fields[i] in row
  }

  /** The text of a field of a row that has it. */
  function Text(row: Row, field: string): string
    requires field in row
  {
    row[field].value
  }

  /** `rec` is what the food row `row` reads as: the name verbatim, three
      integer coercions and four decimal coercions of the fields' texts. */
  predicate IsFoodRecordOf(row: Row, rec: FoodInformation)
    requires HasFields(row, FoodFields)
  {
    && rec.name == Text(row, FoodFields[0])
    && rec.gramsPerUnit == ParseInt(Text(row, FoodFields[1]))
    && rec.minimumIntake == ParseInt(Text(row, FoodFields[2]))
    && rec.maximumIntake == ParseInt(Text(row, FoodFields[3]))
    && rec.energy == ParseFloat(Text(row, FoodFields[4]))
    && rec.protein == ParseFloat(Text(row, FoodFields[5]))
    && rec.fat == ParseFloat(Text(row, FoodFields[6]))
    && rec.carbohydrates == ParseFloat(Text(row, FoodFields[7]))
  }

  /** `rec` is what the constraint row `row` reads as: three texts verbatim
      and a decimal coercion of the value. */
  predicate IsConstraintRecordOf(row: Row, rec: Constraint)
    requires HasFields(row, ConstraintFields)
  {
    && rec.minMax == Text(row, ConstraintFields[0])
    && rec.nutrient == Text(row, ConstraintFields[1])
    && rec.unit == Text(row, ConstraintFields[2])
    && rec.value == ParseFloat(Text(row, ConstraintFields[3]))
  }

  function ReadFood(row: Row): (r: Result<FoodInformation, Error>)
    ensures r.Success? <==> HasFields(row, FoodFields)
    ensures r.Success? ==> IsFoodRecordOf(row, r.value)
    ensures r.Failure? ==> r.error == InputsNotFound
  {
    if !HasFields(row, FoodFields) then Failure(InputsNotFound)
    else
      Success(FoodInformation(
        Text(row, FoodFields[0]),
        ParseInt(Text(row, FoodFields[1])),
        ParseInt(Text(row, FoodFields[2])),
        ParseInt(Text(row, FoodFields[3])),
        ParseFloat(Text(row, FoodFields[4])),
        ParseFloat(Text(row, FoodFields[5])),
        ParseFloat(Text(row, FoodFields[6])),
        ParseFloat(Text(row, FoodFields[7]))))
  }

  function ReadConstraint(row: Row): (r: Result<Constraint, Error>)
    ensures r.Success? <==> HasFields(row, ConstraintFields)
    ensures r.Success? ==> IsConstraintRecordOf(row, r.value)
    ensures r.Failure? ==> r.error == InputsNotFound
  {
    if !HasFields(row, ConstraintFields) then Failure(InputsNotFound)
    else
      Success(Constraint(
        Text(row, ConstraintFields[0]),
        Text(row, ConstraintFields[1]),
        Text(row, ConstraintFields[2]),
        ParseFloat(Text(row, ConstraintFields[3]))))
  }

  /** `Array.from(rows).map(read)` where `read` may throw: one result per
      row, in row order, unless some row throws, in which case the first
      row that throws decides the error. */
  function MapRows<T>(rows: seq<Row>, read: Row -> Result<T, Error>): (r: Result<seq<T>, Error>)
    ensures r.Success? <==> forall i :: 0 <= i < |rows| ==> read(rows[i]).Success?
    ensures r.Success? ==> |r.value| == |rows|
    ensures r.Success? ==> forall i :: 0 <= i < |rows| ==> r.value[i] == read(rows[i]).value
    ensures r.Failure? ==> exists k :: 0 <= k < |rows| && read(rows[k]) == Failure(r.error) &&
                                      forall j :: 0 <= j < k ==> read(rows[j]).Success?
  {
    if rows == [] then Success([])
    else
      match read(rows[0])
      case Failure(e) => Failure(e)
      case Success(x) =>
        match MapRows(rows[1..], read)
        case Failure(e) =>
          assert forall j :: 1 <= j < |rows| ==> rows[j] == rows[1..][j - 1];
          Failure(e)
        case Success(xs) =>
          assert forall j :: 1 <= j < |rows| ==> rows[j] == rows[1..][j - 1];
          Success([x] + xs)
  }

  /** `getFoodInformation`: one record per food row, in row order; zero rows
      give an empty sequence; a row missing any of the eight fields fails
      the whole extraction. */
  function GetFoodInformation(doc: Document): (r: Result<seq<FoodInformation>, Error>)
    ensures r.Success? <==> forall i :: 0 <= i < |Rows(doc, FoodContainer)| ==> HasFields(Rows(doc, FoodContainer)[i], FoodFields)
    ensures r.Failure? ==> r.error == InputsNotFound
    ensures r.Success? ==> |r.value| == |Rows(doc, FoodContainer)|
    ensures r.Success? ==> forall i :: 0 <= i < |r.value| ==> IsFoodRecordOf(Rows(doc, FoodContainer)[i], r.value[i])
  {
    MapRows(Rows(doc, FoodContainer), ReadFood)
  }

  /** `getObjective`: the first objective row only; no row, or a row missing
      either field, is an error. */
  function GetObjective(doc: Document): (r: Result<Objective, Error>)
    ensures |Rows(doc, ObjectiveContainer)| == 0 ==> r == Failure(RowNotFound)
    ensures |Rows(doc, ObjectiveContainer)| > 0 ==>
              var row := Rows(doc, ObjectiveContainer)[0];
              (r.Success? <==> HasFields(row, ObjectiveFields)) &&
              (r.Failure? ==> r.error == InputsNotFound) &&
              (r.Success? ==> r.value.sense == Text(row, ObjectiveFields[0]) && r.value.nutrient == Text(row, ObjectiveFields[1]))
  {
    match FirstRow(doc, ObjectiveContainer)
    case None => Failure(RowNotFound)
    case Some(row) =>
      if !HasFields(row, ObjectiveFields) then Failure(InputsNotFound)
      else Success(Objective(Text(row, ObjectiveFields[0]), Text(row, ObjectiveFields[1])))
  }

  /** `getConstraints`: one record per constraint row, in row order. The
      extractor itself does not check that unit and nutrient agree. */
  function GetConstraints(doc: Document): (r: Result<seq<Constraint>, Error>)
    ensures r.Success? <==> forall i :: 0 <= i < |Rows(doc, ConstraintContainer)| ==> HasFields(Rows(doc, ConstraintContainer)[i], ConstraintFields)
    ensures r.Failure? ==> r.error == InputsNotFound
    ensures r.Success? ==> |r.value| == |Rows(doc, ConstraintContainer)|
    ensures r.Success? ==> forall i :: 0 <= i < |r.value| ==> IsConstraintRecordOf(Rows(doc, ConstraintContainer)[i], r.value[i])
  {
    MapRows(Rows(doc, ConstraintContainer), ReadConstraint)
  }

  /** Rows past the first objective row are never looked at. */
  lemma ObjectiveReadsFirstRowOnly(doc: Document, extra: seq<Row>)
    requires ObjectiveContainer in doc.containers && |doc.containers[ObjectiveContainer]| > 0
    ensures var rows := doc.containers[ObjectiveContainer];
            GetObjective(doc.(containers := doc.containers[ObjectiveContainer := [rows[0]] + extra])) == GetObjective(doc)
  {
  }

  /** Mapping rows appended one at a time: the records of `rows + [row]` are
      the records of `rows` followed by the record of `row`. */
  lemma {:induction false} MapRowsAppend<T>(rows: seq<Row>, row: Row, read: Row -> Result<T, Error>)
    requires MapRows(rows, read).Success? && read(row).Success?
    ensures MapRows(rows + [row], read) == Success(MapRows(rows, read).value + [read(row).value])
  {
    var all := MapRows(rows + [row], read);
    assert all.Success?;
    assert all.value == MapRows(rows, read).value + [read(row).value];
  }

  /** Adding a food row from a template appends exactly the template row's
      record to the extracted foods. */
  lemma {:induction false} AddedFoodRowIsExtractedLast(doc: Document, templateId: string)
    requires RowTemplates.AddItem(doc, templateId, FoodContainer).Success?
    requires GetFoodInformation(doc).Success?
    requires HasFields(doc.rowTemplates[templateId], FoodFields)
    ensures GetFoodInformation(RowTemplates.AddItem(doc, templateId, FoodContainer).value)
            == Success(GetFoodInformation(doc).value + [ReadFood(doc.rowTemplates[templateId]).value])
  {
    var after := RowTemplates.AddItem(doc, templateId, FoodContainer).value;
    var row := doc.rowTemplates[templateId];
    assert Rows(after, FoodContainer) == doc.containers[FoodContainer] + [row];
    MapRowsAppend(doc.containers[FoodContainer], row, ReadFood);
  }

  /** Mapping rows with one row taken out: its result is taken out of the
      records, and the others keep their order. */
  lemma {:induction false} MapRowsRemove<T>(rows: seq<Row>, i: nat, read: Row -> Result<T, Error>)
    requires i < |rows| && MapRows(rows, read).Success?
    ensures var recs := MapRows(rows, read).value;
            MapRows(rows[..i] + rows[i + 1..], read) == Success(recs[..i] + recs[i + 1..])
  {
    var recs := MapRows(rows, read).value;
    var rest := rows[..i] + rows[i + 1..];
    assert forall j :: 0 <= j < |rest| ==> rest[j] == if j < i then rows[j] else rows[j + 1];
    var r := MapRows(rest, read);
    assert r.Success?;
    assert r.value == recs[..i] + recs[i + 1..];
  }

  /** Removing a food row removes exactly its record from the extraction,
      leaving the other records in order. */
  lemma {:induction false} RemovedFoodRowIsNotExtracted(doc: Document, button: Option<Origin>)
    requires RowTemplates.RemoveItem(doc, button).Success?
    requires Closest(doc, button.value).value.container == FoodContainer
    requires GetFoodInformation(doc).Success?
    ensures var i := Closest(doc, button.value).value.index;
            var recs := GetFoodInformation(doc).value;
            GetFoodInformation(RowTemplates.RemoveItem(doc, button).value) == Success(recs[..i] + recs[i + 1..])
  {
    var i := Closest(doc, button.value).value.index;
    var rows := doc.containers[FoodContainer];
    var after := RowTemplates.RemoveItem(doc, button).value;
    assert Rows(after, FoodContainer) == rows[..i] + rows[i + 1..];
    MapRowsRemove(rows, i, ReadFood);
  }
}

=== FILE: legacy_controller.dfy ===
/** The earlier controller. Its row and extraction logic matches the
    canonical one except that every missing element surfaces as a null
    dereference (`TypeError`) and the objective container is read row by row.
    Its unit-option handler is a different state machine: for a non-energy
    nutrient it keeps an amount/ratio menu that is already there, and with
    it the unit the user had chosen. */
module LegacyController {
  import opened Results
  import opened Dom
  import RowTemplates
  import UnitOptions
  import FormExtraction

  const NutrientField := "constraint-nutritional-component"
  const UnitField := "constraint-unit"

  datatype Objective = Objective(problem: string, nutritionalComponent: string)

  datatype Constraint = Constraint(minMax: string, nutritionalComponent: string, unit: string, value: FormExtraction.Parsed)

  const ObjectiveFields: seq<string> := ["objective-problem", "objective-nutritional-component"]
  const ConstraintFields: seq<string> := [
    "constraint-min-max", "constraint-nutritional-component", "constraint-unit", "constraint-value"]

  /** `addItem`: appends the template's row to the target, or throws when
      either id does not resolve. */
  function AddItem(doc: Document, templateId: string, targetId: string): (r: Result<Document, Error>)
    ensures r.Success? <==> templateId in doc.rowTemplates && targetId in doc.containers
    ensures r.Failure? ==> r.error == TypeError
    ensures r.Success? ==> RowTemplates.Appended(doc, r.value, targetId, doc.rowTemplates[templateId])
  {
    if templateId !in doc.rowTemplates || targetId !in doc.containers then Failure(TypeError)
    else
      var rows := doc.containers[targetId];
      Success(doc.(containers := doc.containers[targetId := rows + [doc.rowTemplates[templateId]]]))
  }

  /** `removeItem`: removes the enclosing row, or throws when there is no
      button or no enclosing row. */
  function RemoveItem(doc: Document, button: Option<Origin>): (r: Result<Document, Error>)
    ensures r.Success? <==> button.Some? && Closest(doc, button.value).Some?
    ensures r.Failure? ==> r.error == TypeError
    ensures r.Success? ==> RowTemplates.RemovedAt(doc, r.value, Closest(doc, button.value).value)
  {
    if button.None? then Failure(TypeError)
    else
      match Closest(doc, button.value)
      case None => Failure(TypeError)
      case Some(ref) =>
        var rows := doc.containers[ref.container];
        Success(doc.(containers := doc.containers[ref.container := rows[..ref.index] + rows[ref.index + 1..]]))
  }

  /** Both controllers add and remove rows identically; they differ only in
      which exception a failure raises. */
  lemma RowOperationsAgree(doc: Document, templateId: string, targetId: string, button: Option<Origin>)
    ensures AddItem(doc, templateId, targetId).Success? <==> RowTemplates.AddItem(doc, templateId, targetId).Success?
    ensures AddItem(doc, templateId, targetId).Success? ==>
              AddItem(doc, templateId, targetId).value == RowTemplates.AddItem(doc, templateId, targetId).value
    ensures RemoveItem(doc, button).Success? <==> RowTemplates.RemoveItem(doc, button).Success?
    ensures RemoveItem(doc, button).Success? ==> RemoveItem(doc, button).value == RowTemplates.RemoveItem(doc, button).value
  {
  }

  /** The handler on one row. Energy replaces the menu by the single locked
      option energy. Any other nutrient unlocks the select, and replaces the
      menu by amount and ratio only when no amount option is present. */
  function UpdateUnitRow(row: Row): (r: Result<Row, Error>)
    ensures r.Success? <==> NutrientField in row && UnitField in row
    ensures r.Failure? ==> r.error == TypeError
    ensures r.Success? ==>
              && r.value.Keys == row.Keys
              && (forall f :: f in row && f != UnitField ==> r.value[f] == row[f])
              && var before := row[UnitField];
                 var after := r.value[UnitField];
                 if row[NutrientField].value == "energy" then after == Control("energy", ["energy"], true)
                 else if "amount" in before.options then after == before.(disabled := false)
                 else after == Control("amount", ["amount", "ratio"], false)
  {
    if NutrientField !in row || UnitField !in row then Failure(TypeError)
    else
      var unit := row[UnitField];
      if row[NutrientField].value == "energy" then
        Success(row[UnitField := ReplaceOptions(unit, ["energy"]).(disabled := true)])
      else if "amount" !in unit.options then
        Success(row[UnitField := ReplaceOptions(unit.(disabled := false), ["amount", "ratio"])])
      else
        Success(row[UnitField := unit.(disabled := false)])
  }

  /** `updateUnitOptions(select)` on the enclosing row. Nothing changes
      before a missing element is dereferenced, so a failure leaves the
      document as it was. */
  function UpdateUnitOptions(doc: Document, select: Origin): (r: Result<Document, Error>)
    ensures r.Success? <==> Closest(doc, select).Some? && UpdateUnitRow(RowAt(doc, Closest(doc, select).value)).Success?
    ensures r.Failure? ==> r.error == TypeError
    ensures r.Success? ==>
              var ref := Closest(doc, select).value;
              && Resolves(r.value, ref)
              && RowAt(r.value, ref) == UpdateUnitRow(RowAt(doc, ref)).value
              && OnlyRowChanged(doc, r.value, ref)
  {
    match Closest(doc, select)
    case None => Failure(TypeError)
    case Some(ref) =>
      match UpdateUnitRow(RowAt(doc, ref))
      case Failure(e) => Failure(e)
      case Success(row) => Success(SetRow(doc, ref, row))
  }

  /** Switching between non-energy nutrients keeps the user's unit: with an
      amount option present, the chosen value and the menu survive. */
  lemma KeepsPriorUnitChoice(row: Row)
    requires NutrientField in row && UnitField in row
    requires row[NutrientField].value != "energy" && "amount" in row[UnitField].options
    ensures UpdateUnitRow(row).Success?
    ensures UpdateUnitRow(row).value[UnitField].value == row[UnitField].value
    ensures UpdateUnitRow(row).value[UnitField].options == row[UnitField].options
  {
  }

  /** The menus a unit select shows under either controller. */
  predicate StandardMenu(c: Control)
  {
    c.options == ["energy"] || c.options == ["amount", "ratio"]
  }

  /** Starting from either standard menu, the two controllers show the same
      menu and the same lock state after the handler: they differ at most in
      which unit stays selected. */
  lemma VariantsAgreeOnMenus(templates: map<string, seq<string>>, row: Row)
    requires UnitOptions.StandardTemplates(templates)
    requires NutrientField in row && UnitField in row && UnitOptions.NutrientField in row
    requires row[NutrientField].value == row[UnitOptions.NutrientField].value
    requires StandardMenu(row[UnitField])
    ensures UpdateUnitRow(row).Success?
    ensures var legacy := UpdateUnitRow(row).value[UnitField];
            var canonical := UnitOptions.UpdateUnitRow(templates, row).state[UnitField];
            legacy.options == canonical.options && legacy.disabled == canonical.disabled
  {
  }
  /** The earlier handler also keeps unit and nutrient paired, provided the
      select showed a standard menu with one of its own options selected. */
  lemma UnitIsEnergyIffNutrientIsEnergy(row: Row)
    requires NutrientField in row && UnitField in row
    requires StandardMenu(row[UnitField]) && row[UnitField].value in row[UnitField].options
    ensures var after := UpdateUnitRow(row).value;
            after[UnitField].value == "energy" <==> after[NutrientField].value == "energy"
  {
  }

  /** The two handlers part ways on a user's earlier choice: with "ratio"
      chosen for protein, picking fat again keeps "ratio" here, while the
      canonical handler falls back to "amount". */
  lemma VariantsDifferOnPriorChoice(templates: map<string, seq<string>>)
    requires UnitOptions.StandardTemplates(templates)
    ensures var row := map[NutrientField := Control("fat", [], false),
                           UnitOptions.NutrientField := Control("fat", [], false),
                           UnitField := Control("ratio", ["amount", "ratio"], false)];
            && UpdateUnitRow(row).value[UnitField].value == "ratio"
            && UnitOptions.UpdateUnitRow(templates, row).state[UnitField].value == "amount"
  {
  }

  /** Unlike the canonical handler, the earlier one remembers history: two
      rows showing the same nutrient can end with different units. */
  lemma NotDeterminedByNutrient()
    ensures var row1 := map[NutrientField := Control("protein", [], false), UnitField := Control("ratio", ["amount", "ratio"], false)];
            var row2 := map[NutrientField := Control("protein", [], false), UnitField := Control("energy", ["energy"], true)];
            UpdateUnitRow(row1).value[UnitField] != UpdateUnitRow(row2).value[UnitField]
  {
  }

  /** The food mapping inside `submitForm`: the same record as the
      canonical reader, but a missing field is a null dereference. */
  function ReadFood(row: Row): (r: Result<FormExtraction.FoodInformation, Error>)
    ensures r.Success? <==> FormExtraction.HasFields(row, FormExtraction.FoodFields)
    ensures r.Failure? ==> r.error == TypeError
    ensures r.Success? ==> FormExtraction.IsFoodRecordOf(row, r.value)
  {
    var fields := FormExtraction.FoodFields;
    if !FormExtraction.HasFields(row, fields) then Failure(TypeError)
    else
      Success(FormExtraction.FoodInformation(
        row[fields[0]].value,
        FormExtraction.ParseInt(row[fields[1]].value),
        FormExtraction.ParseInt(row[fields[2]].value),
        FormExtraction.ParseInt(row[fields[3]].value),
        FormExtraction.ParseFloat(row[fields[4]].value),
        FormExtraction.ParseFloat(row[fields[5]].value),
        FormExtraction.ParseFloat(row[fields[6]].value),
        FormExtraction.ParseFloat(row[fields[7]].value)))
  }

  function ReadObjective(row: Row): (r: Result<Objective, Error>)
    ensures r.Success? <==> FormExtraction.HasFields(row, ObjectiveFields)
    ensures r.Failure? ==> r.error == TypeError
    ensures r.Success? ==> r.value.problem == row[ObjectiveFields[0]].value &&
                           r.value.nutritionalComponent == row[ObjectiveFields[1]].value
  {
    if !FormExtraction.HasFields(row, ObjectiveFields) then Failure(TypeError)
    else Success(Objective(row[ObjectiveFields[0]].value, row[ObjectiveFields[1]].value))
  }

  function ReadConstraint(row: Row): (r: Result<Constraint, Error>)
    ensures r.Success? <==> FormExtraction.HasFields(row, ConstraintFields)
    ensures r.Failure? ==> r.error == TypeError
    ensures r.Success? ==> && r.value.minMax == row[ConstraintFields[0]].value
                           && r.value.nutritionalComponent == row[ConstraintFields[1]].value
                           && r.value.unit == row[ConstraintFields[2]].value
                           && r.value.value == FormExtraction.ParseFloat(row[ConstraintFields[3]].value)
  {
    if !FormExtraction.HasFields(row, ConstraintFields) then Failure(TypeError)
    else
      Success(Constraint(row[ConstraintFields[0]].value, row[ConstraintFields[1]].value,
                         row[ConstraintFields[2]].value,
                         FormExtraction.ParseFloat(row[ConstraintFields[3]].value)))
  }

  /** Foods: one record per row, in row order. */
  function ExtractFoods(doc: Document): (r: Result<seq<FormExtraction.FoodInformation>, Error>)
    ensures var rows := Rows(doc, FormExtraction.FoodContainer);
            && (r.Success? <==> forall i :: 0 <= i < |rows| ==> FormExtraction.HasFields(rows[i], FormExtraction.FoodFields))
            && (r.Failure? ==> r.error == TypeError)
            && (r.Success? ==> |r.value| == |rows| &&
                               forall i :: 0 <= i < |rows| ==> FormExtraction.IsFoodRecordOf(rows[i], r.value[i]))
  {
    FormExtraction.MapRows(Rows(doc, FormExtraction.FoodContainer), ReadFood)
  }

  /** Objectives: every objective row is read, one entry per row. */
  function ExtractObjectives(doc: Document): (r: Result<seq<Objective>, Error>)
    ensures var rows := Rows(doc, FormExtraction.ObjectiveContainer);
            && (r.Success? <==> forall i :: 0 <= i < |rows| ==> FormExtraction.HasFields(rows[i], ObjectiveFields))
            && (r.Failure? ==> r.error == TypeError)
            && (r.Success? ==> |r.value| == |rows| &&
                               forall i :: 0 <= i < |rows| ==>
                                 (r.value[i].problem == rows[i][ObjectiveFields[0]].value &&
                                  r.value[i].nutritionalComponent == rows[i][ObjectiveFields[1]].value))
  {
    FormExtraction.MapRows(Rows(doc, FormExtraction.ObjectiveContainer), ReadObjective)
  }

  /** Constraints: one record per row, in row order. */
  function ExtractConstraints(doc: Document): (r: Result<seq<Constraint>, Error>)
    ensures var rows := Rows(doc, FormExtraction.ConstraintContainer);
            && (r.Success? <==> forall i :: 0 <= i < |rows| ==> FormExtraction.HasFields(rows[i], ConstraintFields))
            && (r.Failure? ==> r.error == TypeError)
            && (r.Success? ==> |r.value| == |rows| &&
                               forall i :: 0 <= i < |rows| ==>
                                 (&& r.value[i].minMax == rows[i][ConstraintFields[0]].value
                                  && r.value[i].nutritionalComponent == rows[i][ConstraintFields[1]].value
                                  && r.value[i].unit == rows[i][ConstraintFields[2]].value
                                  && r.value[i].value == FormExtraction.ParseFloat(rows[i][ConstraintFields[3]].value)))
  {
    FormExtraction.MapRows(Rows(doc, FormExtraction.ConstraintContainer), ReadConstraint)
  }

  /** Food extraction is the same in both controllers, apart from the
      exception a missing field raises. */
  lemma FoodExtractionAgrees(doc: Document)
    ensures ExtractFoods(doc).Success? <==> FormExtraction.GetFoodInformation(doc).Success?
    ensures ExtractFoods(doc).Success? ==> ExtractFoods(doc).value == FormExtraction.GetFoodInformation(doc).value
  {
  }

  /** Extra objective rows grow the earlier controller's objective list by
      one entry each, and leave the canonical controller's objective as it
      was. */
  lemma ObjectiveCardinalityDiffers(doc: Document, extra: seq<Row>)
    requires FormExtraction.ObjectiveContainer in doc.containers
    requires |doc.containers[FormExtraction.ObjectiveContainer]| > 0
    ensures var rows := doc.containers[FormExtraction.ObjectiveContainer];
            var more := doc.(containers := doc.containers[FormExtraction.ObjectiveContainer := rows + extra]);
            && FormExtraction.GetObjective(more) == FormExtraction.GetObjective(doc)
            && (ExtractObjectives(more).Success? ==>
                  ExtractObjectives(doc).Success? &&
                  |ExtractObjectives(more).value| == |ExtractObjectives(doc).value| + |extra|)
  {
    var rows := doc.containers[FormExtraction.ObjectiveContainer];
    var more := doc.(containers := doc.containers[FormExtraction.ObjectiveContainer := rows + extra]);
    assert Rows(more, FormExtraction.ObjectiveContainer) == rows + extra;
    if ExtractObjectives(more).Success? {
      assert forall i :: 0 <= i < |rows| ==> (rows + extra)[i] == rows[i];
    }
  }

  /** The two constraint rows agree on the nutrient: the canonical and the
      earlier field name are both absent, or both present with the same
      control. */
  predicate SameNutrient(row: Row)
  {
    && (UnitOptions.NutrientField in row <==> NutrientField in row)
    && (NutrientField in row ==> row[UnitOptions.NutrientField] == row[NutrientField])
  }

  lemma HasFourFields(row: Row, fields: seq<string>)
    requires |fields| == 4
    ensures FormExtraction.HasFields(row, fields) <==>
              fields[0] in row && fields[1] in row && fields[2] in row && fields[3] in row
  {
  }

  /** Where the nutrient fields agree, constraint extraction is the same in
      both controllers field by field, apart from the exception a missing
      field raises. */
  lemma ConstraintExtractionAgrees(doc: Document)
    requires forall i :: 0 <= i < |Rows(doc, FormExtraction.ConstraintContainer)| ==>
               SameNutrient(Rows(doc, FormExtraction.ConstraintContainer)[i])
    ensures ExtractConstraints(doc).Success? <==> FormExtraction.GetConstraints(doc).Success?
    ensures ExtractConstraints(doc).Success? ==>
              var legacy := ExtractConstraints(doc).value;
              var canonical := FormExtraction.GetConstraints(doc).value;
              && |legacy| == |canonical|
              && forall i :: 0 <= i < |legacy| ==>
                   && legacy[i].minMax == canonical[i].minMax
                   && legacy[i].nutritionalComponent == canonical[i].nutrient
                   && legacy[i].unit == canonical[i].unit
                   && legacy[i].value == canonical[i].value
  {
    var rows := Rows(doc, FormExtraction.ConstraintContainer);
    assert forall i :: 0 <= i < |rows| ==>
             (FormExtraction.HasFields(rows[i], ConstraintFields) <==>
              FormExtraction.HasFields(rows[i], FormExtraction.ConstraintFields)) by {
      forall i | 0 <= i < |rows|
        ensures FormExtraction.HasFields(rows[i], ConstraintFields) <==>
                FormExtraction.HasFields(rows[i], FormExtraction.ConstraintFields)
      {
        HasFourFields(rows[i], ConstraintFields);
        HasFourFields(rows[i], FormExtraction.ConstraintFields);
      }
    }
  }
}

=== FILE: result_rendering.dfy ===
/** What the canonical controller does with the optimiser's response. An
    "Optimal" status produces the data for two charts (the chart library
    itself is outside the model: only the data handed to it is computed);
    any other status empties both chart mounts and raises a notification.

    Numbers in the response are JavaScript numbers, identified here by the
    text JavaScript prints for them, which is what a template literal
    interpolates; reading a key the object lacks gives `undefined`. */
module ResultRendering {
  import opened Results
  import opened Dom

  datatype JsNumber = JsNumber(display: string)

  /** The response body. `foodIntakes` is an object whose own properties are
      listed in enumeration order. */
  datatype OptimizationResult = OptimizationResult(
    status: string,
    pfcRatio: map<string, JsNumber>,
    totalNutrientValues: map<string, JsNumber>,
    foodIntakes: seq<(string, JsNumber)>,
    message: string)

  const PfcNutrients: seq<string> := ["protein", "fat", "carbohydrates"]
  const PfcColors: seq<string> := ["rgb(255, 128, 128)", "rgb(128, 255, 128)", "rgb(128, 128, 255)"]
  const PfcMount := "pfc-ratio-chart"
  const IntakesMount := "food-intakes-chart"

  datatype PfcPoint = PfcPoint(name: string, y: Option<JsNumber>, color: string)
  datatype PfcChart = PfcChart(subtitle: string, data: seq<PfcPoint>)
  datatype IntakesChart = IntakesChart(categories: seq<string>, data: seq<JsNumber>)

  /** The two outcomes of a handled response: both charts drawn, or both
      mounts cleared and the user notified. */
  datatype Dispatch = Drawn(pfc: PfcChart, intakes: IntakesChart) | ClearedAndNotified(doc: Document, notice: string)

  function Get(m: map<string, JsNumber>, key: string): Option<JsNumber>
  {
    if key in m then Some(m[key]) else None
  }

  /** Interpolation into a template literal. */
  function Show(v: Option<JsNumber>): string
  {
    match v
    case Some(n) => n.display
    case None => "undefined"
  }

  /** `toUpperCase` on the ASCII letters; other characters are unchanged. */
  function ToUpper(c: char): char
  {
    if 'a' <= c <= 'z' then (c as int - 32) as char else c
  }

  /** `s.charAt(0).toUpperCase() + s.slice(1)`. */
  function Capitalise(s: string): (r: string)
    ensures |r| == |s|
    ensures |s| > 0 ==> r[0] == ToUpper(s[0]) && r[1..] == s[1..]
  {
    if |s| == 0 then "" else [ToUpper(s[0])] + s[1..]
  }

  /** The legend text of one slice: the capitalised nutrient and its grams. */
  function SliceLabel(nutrient: string, totals: map<string, JsNumber>): string
  {
    Capitalise(nutrient) + " (" + Show(Get(totals, nutrient)) + "g)"
  }

  /** A label splits back into the capitalised nutrient, " (", the gram
      total as interpolated, and "g)". */
  lemma SliceLabelParts(nutrient: string, totals: map<string, JsNumber>)
    ensures var r := SliceLabel(nutrient, totals);
            && |r| == |nutrient| + |Show(Get(totals, nutrient))| + 4
            && r[..|nutrient|] == Capitalise(nutrient)
            && r[|nutrient|..|nutrient| + 2] == " ("
            && r[|nutrient| + 2..|r| - 2] == Show(Get(totals, nutrient))
            && r[|r| - 2..] == "g)"
  {
  }

  /** The data of the proportion chart: three slices in the fixed order
      protein, fat, carbohydrates, each taking its colour from the palette at
      the same position, its size from the ratio and its label from the
      gram totals; the subtitle reports total energy. */
  function PfcChartData(pfcRatio: map<string, JsNumber>, totals: map<string, JsNumber>): (c: PfcChart)
    ensures |c.data| == |PfcNutrients| == |PfcColors|
    ensures forall i :: 0 <= i < |c.data| ==>
              c.data[i].color == PfcColors[i] &&
              c.data[i].y == Get(pfcRatio, PfcNutrients[i]) &&
              c.data[i].name == SliceLabel(PfcNutrients[i], totals)
    ensures c.subtitle == "Total Energy: " + Show(Get(totals, "energy")) + " kcal"
  {
    var data := seq(|PfcNutrients|, i requires 0 <= i < |PfcNutrients| =>
                      PfcPoint(SliceLabel(PfcNutrients[i], totals), Get(pfcRatio, PfcNutrients[i]), PfcColors[i]));
    PfcChart("Total Energy: " + Show(Get(totals, "energy")) + " kcal", data)
  }

  /** The slice labels spelled out: each nutrient name capitalised. */
  lemma PfcLabels(pfcRatio: map<string, JsNumber>, totals: map<string, JsNumber>)
    ensures var c := PfcChartData(pfcRatio, totals);
            && c.data[0].name == "Protein (" + Show(Get(totals, "protein")) + "g)"
            && c.data[1].name == "Fat (" + Show(Get(totals, "fat")) + "g)"
            && c.data[2].name == "Carbohydrates (" + Show(Get(totals, "carbohydrates")) + "g)"
  {
    CapitalisedNutrients();
    var c := PfcChartData(pfcRatio, totals);
    assert c.data[0].name == SliceLabel("protein", totals) by { assert PfcNutrients[0] == "protein"; }
    assert c.data[1].name == SliceLabel("fat", totals) by { assert PfcNutrients[1] == "fat"; }
    assert c.data[2].name == SliceLabel("carbohydrates", totals) by { assert PfcNutrients[2] == "carbohydrates"; }
  }

  lemma CapitalisedNutrients()
    ensures Capitalise("protein") == "Protein"
    ensures Capitalise("fat") == "Fat"
    ensures Capitalise("carbohydrates") == "Carbohydrates"
  {
  }

  /** The data of the bar chart: one bar per food, in the object's order. */
  function FoodIntakesChartData(intakes: seq<(string, JsNumber)>): (c: IntakesChart)
    ensures |c.categories| == |intakes| && |c.data| == |intakes|
    ensures forall i :: 0 <= i < |intakes| ==> c.categories[i] == intakes[i].0 && c.data[i] == intakes[i].1
  {
    IntakesChart(seq(|intakes|, i requires 0 <= i < |intakes| => intakes[i].0),
                 seq(|intakes|, i requires 0 <= i < |intakes| => intakes[i].1))
  }

  function Zip(keys: seq<string>, values: seq<JsNumber>): seq<(string, JsNumber)>
    requires |keys| == |values|
  {
    if keys == [] then [] else [(keys[0], values[0])] + Zip(keys[1..], values[1..])
  }

  /** The bar chart loses nothing: pairing its categories with its values
      gives back the food intakes, in order. */
  lemma {:induction false} IntakesRoundTrip(intakes: seq<(string, JsNumber)>)
    ensures var c := FoodIntakesChartData(intakes);
            Zip(c.categories, c.data) == intakes
  {
    if intakes != [] {
      var c := FoodIntakesChartData(intakes);
      IntakesRoundTrip(intakes[1..]);
      assert c.categories[1..] == FoodIntakesChartData(intakes[1..]).categories;
      assert c.data[1..] == FoodIntakesChartData(intakes[1..]).data;
    }
  }

  /** `clearCharts`: both mounts must exist (the food-intakes mount is
      checked first); then both lose all their content and nothing else
      changes. */
  function ClearCharts(doc: Document): (r: Result<Document, Error>)
    ensures IntakesMount !in doc.mounts ==> r == Failure(ChartNotFound(IntakesMount))
    ensures IntakesMount in doc.mounts && PfcMount !in doc.mounts ==> r == Failure(ChartNotFound(PfcMount))
    ensures r.Success? <==> IntakesMount in doc.mounts && PfcMount in doc.mounts
    ensures r.Success? ==>
              && r.value.mounts.Keys == doc.mounts.Keys
              && r.value.mounts[IntakesMount] == [] && r.value.mounts[PfcMount] == []
              && (forall m :: m in doc.mounts && m != IntakesMount && m != PfcMount ==> r.value.mounts[m] == doc.mounts[m])
              && r.value.containers == doc.containers
              && r.value.rowTemplates == doc.rowTemplates && r.value.optionTemplates == doc.optionTemplates
  {
    if IntakesMount !in doc.mounts then Failure(ChartNotFound(IntakesMount))
    else if PfcMount !in doc.mounts then Failure(ChartNotFound(PfcMount))
    else Success(doc.(mounts := doc.mounts[IntakesMount := []][PfcMount := []]))
  }

  /** Clearing the charts a second time changes nothing. */
  lemma ClearChartsIdempotent(doc: Document)
    requires ClearCharts(doc).Success?
    ensures ClearCharts(ClearCharts(doc).value) == ClearCharts(doc)
  {
    var once := ClearCharts(doc).value;
    assert once.mounts[IntakesMount := []][PfcMount := []] == once.mounts;
  }

  /** The text of the failure notification. */
  function Notice(status: string, message: string): (r: string)
    ensures |r| == |status| + |message| + 18
    ensures r[..8] == "status: " && r[8..8 + |status|] == status
    ensures r[8 + |status|] == '\n'
    ensures r[9 + |status|..18 + |status|] == "message: " && r[18 + |status|..] == message
  {
    "status: " + status + "\n" + "message: " + message
  }

  /** The position of the first line break, or the length when there is none. */
  function LineEnd(s: string): (k: nat)
    ensures k <= |s|
    ensures k < |s| ==> s[k] == '\n'
    ensures forall j :: 0 <= j < k ==> s[j] != '\n'
  {
    if s == [] then 0
    else if s[0] == '\n' then 0
    else 1 + LineEnd(s[1..])
  }

  /** Reads a notification back into its status and message. */
  function ParseNotice(n: string): Option<(string, string)>
  {
    var k := LineEnd(n);
    if k < |n| && 8 <= k && n[..8] == "status: " && k + 10 <= |n| && n[k + 1..k + 10] == "message: "
    then Some((n[8..k], n[k + 10..]))
    else None
  }

  /** A notification carries both the status and the message, recoverably
      so whenever the status is a single line. */
  lemma {:induction false} NoticeRoundTrip(status: string, message: string)
    requires forall i :: 0 <= i < |status| ==> status[i] != '\n'
    ensures ParseNotice(Notice(status, message)) == Some((status, message))
  {
    var n := Notice(status, message);
    var k := 8 + |status|;
    assert n[k] == '\n';
    assert forall j :: 0 <= j < k ==> n[j] != '\n' by {
      forall j | 0 <= j < k ensures n[j] != '\n' {
        if j < 8 { assert n[j] == "status: "[j]; } else { assert n[j] == status[j - 8]; }
      }
    }
    assert LineEnd(n) == k;
    assert n[..8] == "status: ";
    assert n[8..k] == status;
    assert n[k + 1..k + 10] == "message: ";
    assert n[k + 10..] == message;
  }

  /** `handleOptimizationResult`: draws both charts exactly when the status
      is "Optimal"; otherwise clears both mounts and then notifies. A
      missing mount aborts before anything is cleared or shown. */
  function HandleOptimizationResult(doc: Document, res: OptimizationResult): (r: Result<Dispatch, Error>)
    ensures (r.Success? && r.value.Drawn?) <==> res.status == "Optimal"
    ensures r.Success? && r.value.Drawn? ==>
              r.value.pfc == PfcChartData(res.pfcRatio, res.totalNutrientValues) &&
              r.value.intakes == FoodIntakesChartData(res.foodIntakes)
    ensures res.status != "Optimal" ==> (r.Success? <==> ClearCharts(doc).Success?)
    ensures r.Failure? ==> r.error == ClearCharts(doc).error
    ensures r.Success? && r.value.ClearedAndNotified? ==>
              ClearCharts(doc).Success? && r.value.doc == ClearCharts(doc).value &&
              r.value.doc.mounts[IntakesMount] == [] && r.value.doc.mounts[PfcMount] == [] &&
              r.value.notice == Notice(res.status, res.message)
  {
    if res.status == "Optimal" then
      Success(Drawn(PfcChartData(res.pfcRatio, res.totalNutrientValues), FoodIntakesChartData(res.foodIntakes)))
    else
      match ClearCharts(doc)
      case Failure(e) => Failure(e)
      case Success(cleared) => Success(ClearedAndNotified(cleared, Notice(res.status, res.message)))
  }

  /** A worked optimal response: three labelled slices with their ratios, the
      energy subtitle, and the foods in order. */
  lemma OptimalExample(doc: Document)
    ensures var res := OptimizationResult(
              "Optimal",
              map["protein" := JsNumber("30"), "fat" := JsNumber("20"), "carbohydrates" := JsNumber("50")],
              map["energy" := JsNumber("2000"), "protein" := JsNumber("150"), "fat" := JsNumber("44"),
                  "carbohydrates" := JsNumber("250")],
              [("Chicken", JsNumber("2")), ("Rice", JsNumber("3"))],
              "");
            var r := HandleOptimizationResult(doc, res);
            && r.Success? && r.value.Drawn?
            && [r.value.pfc.data[0].name, r.value.pfc.data[1].name, r.value.pfc.data[2].name]
               == ["Protein (150g)", "Fat (44g)", "Carbohydrates (250g)"]
            && [r.value.pfc.data[0].y, r.value.pfc.data[1].y, r.value.pfc.data[2].y]
               == [Some(JsNumber("30")), Some(JsNumber("20")), Some(JsNumber("50"))]
            && r.value.pfc.subtitle == "Total Energy: 2000 kcal"
            && r.value.intakes == IntakesChart(["Chicken", "Rice"], [JsNumber("2"), JsNumber("3")])
  {
    var ratio := map["protein" := JsNumber("30"), "fat" := JsNumber("20"), "carbohydrates" := JsNumber("50")];
    var totals := map["energy" := JsNumber("2000"), "protein" := JsNumber("150"), "fat" := JsNumber("44"),
                      "carbohydrates" := JsNumber("250")];
    PfcLabels(ratio, totals);
    var p := PfcChartData(ratio, totals);
    assert Show(Get(totals, "protein")) == "150";
    assert Show(Get(totals, "fat")) == "44";
    assert Show(Get(totals, "carbohydrates")) == "250";
    assert Show(Get(totals, "energy")) == "2000";
    assert p.data[0].y == Some(JsNumber("30")) by { assert PfcNutrients[0] == "protein"; }
    assert p.data[1].y == Some(JsNumber("20")) by { assert PfcNutrients[1] == "fat"; }
    assert p.data[2].y == Some(JsNumber("50")) by { assert PfcNutrients[2] == "carbohydrates"; }
    var c := FoodIntakesChartData([("Chicken", JsNumber("2")), ("Rice", JsNumber("3"))]);
    assert c.categories == ["Chicken", "Rice"];
    assert c.data == [JsNumber("2"), JsNumber("3")];
    var res := OptimizationResult("Optimal", ratio, totals, [("Chicken", JsNumber("2")), ("Rice", JsNumber("3"))], "");
    var r := HandleOptimizationResult(doc, res);
    assert r.Success? && r.value.Drawn?;
    assert r.value.pfc == p;
    assert p.data[0].name == "Protein (150g)";
    assert p.data[1].name == "Fat (44g)";
    assert p.data[2].name == "Carbohydrates (250g)";
    assert p.subtitle == "Total Energy: 2000 kcal";
    assert r.value.intakes == c;
    assert [p.data[0].name, p.data[1].name, p.data[2].name] == ["Protein (150g)", "Fat (44g)", "Carbohydrates (250g)"];
    assert [p.data[0].y, p.data[1].y, p.data[2].y] == [Some(JsNumber("30")), Some(JsNumber("20")), Some(JsNumber("50"))];
  }

  /** A worked failing response: both mounts end empty and the notification
      reports the status and the message. */
  lemma InfeasibleExample(doc: Document)
    requires IntakesMount in doc.mounts && PfcMount in doc.mounts
    ensures var res := OptimizationResult("Infeasible", map[], map[], [], "no feasible solution");
            var r := HandleOptimizationResult(doc, res);
            && r.Success? && r.value.ClearedAndNotified?
            && r.value.doc.mounts[IntakesMount] == [] && r.value.doc.mounts[PfcMount] == []
            && r.value.notice == "status: Infeasible\nmessage: no feasible solution"
  {
    var res := OptimizationResult("Infeasible", map[], map[], [], "no feasible solution");
    assert res.status != "Optimal" by { assert res.status[0] != "Optimal"[0]; }
    InfeasibleNotice();
  }

  lemma InfeasibleNotice()
    ensures Notice("Infeasible", "no feasible solution") == "status: Infeasible\nmessage: no feasible solution"
  {
  }
}

=== FILE: results.dfy ===
/** Failure wrappers used throughout the model: `Option` for a lookup that
    may come back empty (a DOM query returning null, a missing object key)
    and `Result` for an operation that throws. */
module Results {

  datatype Option<+T> = None | Some(value: T)

  datatype Result<+T, +E> = Success(value: T) | Failure(error: E)
}

=== FILE: row_templates.dfy ===
/** Repeatable rows in the canonical controller: a row is created only by
    cloning a template to the end of a container, and destroyed only by
    removing the row enclosing the control the user pressed. */
module RowTemplates {
  import opened Results
  import opened Dom

  /** `after` is `before` with `row` appended to container `id`; every other
      part of the document is untouched. */
  predicate Appended(before: Document, after: Document, id: string, row: Row)
    requires id in before.containers
  {
    && after.containers.Keys == before.containers.Keys
    && |after.containers[id]| == |before.containers[id]| + 1
    && after.containers[id][..|before.containers[id]|] == before.containers[id]
    && after.containers[id][|before.containers[id]|] == row
    && (forall c :: c in before.containers && c != id ==> after.containers[c] == before.containers[c])
    && after.rowTemplates == before.rowTemplates
    && after.optionTemplates == before.optionTemplates
    && after.mounts == before.mounts
  }

  /** `after` is `before` without the row at `r`; the other rows of that
      container keep their order and every other part is untouched. */
  predicate RemovedAt(before: Document, after: Document, r: RowRef)
    requires Resolves(before, r)
  {
    var rows := before.containers[r.container];
    && after.containers.Keys == before.containers.Keys
    && |after.containers[r.container]| == |rows| - 1
    && (forall i :: 0 <= i < r.index ==> after.containers[r.container][i] == rows[i])
    && (forall i :: r.index < i < |rows| ==> after.containers[r.container][i - 1] == rows[i])
    && (forall c :: c in before.containers && c != r.container ==> after.containers[c] == before.containers[c])
    && after.rowTemplates == before.rowTemplates
    && after.optionTemplates == before.optionTemplates
    && after.mounts == before.mounts
  }

  /** `addItem`: the template is looked up first, then the target; the clone
      of the template's row becomes the container's last row. */
  function AddItem(doc: Document, templateId: string, targetId: string): (r: Result<Document, Error>)
    ensures templateId !in doc.rowTemplates ==> r == Failure(TemplateNotFound(templateId))
    ensures templateId in doc.rowTemplates && targetId !in doc.containers ==> r == Failure(TargetNotFound(targetId))
    ensures r.Success? <==> templateId in doc.rowTemplates && targetId in doc.containers
    ensures r.Success? ==> Appended(doc, r.value, targetId, doc.rowTemplates[templateId])
  {
    if templateId !in doc.rowTemplates then Failure(TemplateNotFound(templateId))
    else if targetId !in doc.containers then Failure(TargetNotFound(targetId))
    else
      var rows := doc.containers[targetId];
      Success(doc.(containers := doc.containers[targetId := rows + [doc.rowTemplates[templateId]]]))
  }

  /** `removeItem`: a null button is refused, then a button outside any row;
      otherwise exactly the enclosing row disappears. */
  function RemoveItem(doc: Document, button: Option<Origin>): (r: Result<Document, Error>)
    ensures button.None? ==> r == Failure(ButtonNotFound)
    ensures button.Some? && Closest(doc, button.value).None? ==> r == Failure(RowNotFound)
    ensures r.Success? <==> button.Some? && Closest(doc, button.value).Some?
    ensures r.Success? ==> RemovedAt(doc, r.value, Closest(doc, button.value).value)
  {
    match button
    case None => Failure(ButtonNotFound)
    case Some(origin) =>
      match Closest(doc, origin)
      case None => Failure(RowNotFound)
      case Some(ref) =>
        var rows := doc.containers[ref.container];
        Success(doc.(containers := doc.containers[ref.container := rows[..ref.index] + rows[ref.index + 1..]]))
  }

  /** Removing a row loses exactly that row's data: the container's rows as a
      multiset shrink by the removed row and nothing else. */
  lemma {:induction false} RemoveItemLosesOnlyThatRow(doc: Document, button: Option<Origin>)
    requires RemoveItem(doc, button).Success?
    ensures var ref := Closest(doc, button.value).value;
            multiset(RemoveItem(doc, button).value.containers[ref.container]) + multiset{RowAt(doc, ref)}
              == multiset(doc.containers[ref.container])
  {
    var ref := Closest(doc, button.value).value;
    var rows := doc.containers[ref.container];
    assert rows == rows[..ref.index] + [rows[ref.index]] + rows[ref.index + 1..];
  }

  /** Adding a row and then removing the row just added gives back the
      document one started with. */
  lemma {:induction false} AddThenRemoveRestores(doc: Document, templateId: string, targetId: string)
    requires AddItem(doc, templateId, targetId).Success?
    ensures RemoveItem(AddItem(doc, templateId, targetId).value,
                       Some(Origin(Some(RowRef(targetId, |doc.containers[targetId]|))))) == Success(doc)
  {
    var added := AddItem(doc, templateId, targetId).value;
    var rows := doc.containers[targetId];
    var ref := RowRef(targetId, |rows|);
    assert Resolves(added, ref);
    assert added.containers[targetId][..|rows|] + added.containers[targetId][|rows| + 1..] == rows;
    assert added.containers[targetId := rows] == doc.containers;
  }

  /** Successive adds stack up in call order. */
  lemma AddTwiceKeepsOrder(doc: Document, t1: string, t2: string, targetId: string)
    requires t1 in doc.rowTemplates && t2 in doc.rowTemplates && targetId in doc.containers
    ensures var d1 := AddItem(doc, t1, targetId).value;
            var d2 := AddItem(d1, t2, targetId).value;
            d2.containers[targetId] == doc.containers[targetId] + [doc.rowTemplates[t1], doc.rowTemplates[t2]]
  {
  }
}

=== FILE: unit_options.dfy ===
/** The canonical unit-selection state machine. A change to a constraint
    row's nutrient select clears the row's unit select and refills it from
    one of two option templates: the energy template (and the select is
    locked) or the amount/ratio template (and the select is unlocked). */
module UnitOptions {
  import opened Results
  import opened Dom

  const NutrientField := "constraint-nutrient"
  const UnitField := "constraint-unit"
  const EnergyTemplateId := "unit-options-energy"
  const AmountRatioTemplateId := "unit-options-amount-ratio"

  /** The option templates as the page ships them. */
  predicate StandardTemplates(templates: map<string, seq<string>>)
  {
    && EnergyTemplateId in templates && templates[EnergyTemplateId] == ["energy"]
    && AmountRatioTemplateId in templates && templates[AmountRatioTemplateId] == ["amount", "ratio"]
  }

  /** The handler on one row. Both selects must exist before anything
      changes; the unit select is then emptied before the option template is
      looked up, so a missing template leaves it empty (and, for a
      non-energy nutrient, already unlocked). */
  function UpdateUnitRow(templates: map<string, seq<string>>, row: Row): (r: Partial<Row>)
    ensures NutrientField !in row ==> r == Partial(row, Some(NutrientSelectNotFound))
    ensures NutrientField in row && UnitField !in row ==> r == Partial(row, Some(UnitSelectNotFound))
    ensures r.failure.None? <==>
              NutrientField in row && UnitField in row &&
              (if row[NutrientField].value == "energy" then EnergyTemplateId in templates
               else AmountRatioTemplateId in templates)
    ensures r.state.Keys == row.Keys
    ensures forall f :: f in row && f != UnitField ==> r.state[f] == row[f]
    ensures NutrientField in row && UnitField in row ==>
              var unit := r.state[UnitField];
              if row[NutrientField].value == "energy" then
                if EnergyTemplateId in templates
                then && unit.options == templates[EnergyTemplateId] && unit.disabled
                     && unit.value == (if templates[EnergyTemplateId] != [] then templates[EnergyTemplateId][0] else "")
                else unit.options == [] && unit.value == "" && unit.disabled == row[UnitField].disabled
              else
                if AmountRatioTemplateId in templates
                then && unit.options == templates[AmountRatioTemplateId] && !unit.disabled
                     && unit.value == (if templates[AmountRatioTemplateId] != [] then templates[AmountRatioTemplateId][0] else "")
                else unit.options == [] && unit.value == "" && !unit.disabled
  {
    if NutrientField !in row then Partial(row, Some(NutrientSelectNotFound))
    else if UnitField !in row then Partial(row, Some(UnitSelectNotFound))
    else
      var cleared := ReplaceOptions(row[UnitField], []);
      if row[NutrientField].value == "energy" then
        if EnergyTemplateId !in templates then
          Partial(row[UnitField := cleared], Some(UnitTemplateNotFound(EnergyTemplateId)))
        else
          Partial(row[UnitField := ReplaceOptions(cleared, templates[EnergyTemplateId]).(disabled := true)], None)
      else
        var unlocked := cleared.(disabled := false);
        if AmountRatioTemplateId !in templates then
          Partial(row[UnitField := unlocked], Some(UnitTemplateNotFound(AmountRatioTemplateId)))
        else
          Partial(row[UnitField := ReplaceOptions(unlocked, templates[AmountRatioTemplateId])], None)
  }

  /** `updateUnitOptions(select)`: find the enclosing row, run the handler
      on it and write the row back, whatever state the handler left. */
  function UpdateUnitOptions(doc: Document, select: Origin): (r: Partial<Document>)
    ensures Closest(doc, select).None? ==> r == Partial(doc, Some(RowNotFound))
    ensures Closest(doc, select).Some? ==>
              var ref := Closest(doc, select).value;
              var step := UpdateUnitRow(doc.optionTemplates, RowAt(doc, ref));
              && r.failure == step.failure
              && Resolves(r.state, ref) && RowAt(r.state, ref) == step.state
              && OnlyRowChanged(doc, r.state, ref)
  {
    match Closest(doc, select)
    case None => Partial(doc, Some(RowNotFound))
    case Some(ref) =>
      var step := UpdateUnitRow(doc.optionTemplates, RowAt(doc, ref));
      Partial(SetRow(doc, ref, step.state), step.failure)
  }

  /** With the standard templates, an energy nutrient yields the single
      locked option "energy" and any other nutrient the unlocked options
      amount and ratio, with amount selected. */
  lemma StandardTransitions(templates: map<string, seq<string>>, row: Row)
    requires StandardTemplates(templates)
    requires NutrientField in row && UnitField in row
    ensures var r := UpdateUnitRow(templates, row);
            r.failure.None? &&
            if row[NutrientField].value == "energy"
            then r.state[UnitField] == Control("energy", ["energy"], true)
            else r.state[UnitField] == Control("amount", ["amount", "ratio"], false)
  {
  }

  /** The (nutrient, unit) pairing can never go wrong: after the handler the
      unit is "energy" exactly when the nutrient is "energy". */
  lemma UnitIsEnergyIffNutrientIsEnergy(templates: map<string, seq<string>>, row: Row)
    requires StandardTemplates(templates)
    requires NutrientField in row && UnitField in row
    ensures var after := UpdateUnitRow(templates, row).state;
            after[UnitField].value == "energy" <==> after[NutrientField].value == "energy"
  {
  }

  /** The unit select after the handler is a function of the nutrient alone:
      whatever the unit select held before is forgotten. */
  lemma DependsOnlyOnNutrient(templates: map<string, seq<string>>, row1: Row, row2: Row)
    requires EnergyTemplateId in templates && AmountRatioTemplateId in templates
    requires NutrientField in row1 && UnitField in row1 && NutrientField in row2 && UnitField in row2
    requires row1[NutrientField].value == row2[NutrientField].value
    ensures UpdateUnitRow(templates, row1).state[UnitField] == UpdateUnitRow(templates, row2).state[UnitField]
  {
  }

  /** Running the handler twice is the same as running it once: a second
      run leaves the same state and reports the same error, if any. */
  lemma Idempotent(templates: map<string, seq<string>>, row: Row)
    ensures UpdateUnitRow(templates, UpdateUnitRow(templates, row).state) == UpdateUnitRow(templates, row)
  {
    var once := UpdateUnitRow(templates, row);
    var twice := UpdateUnitRow(templates, once.state);
    if NutrientField in row && UnitField in row {
      assert twice.state[UnitField] == once.state[UnitField];
      assert twice.state == once.state;
    }
  }

  /** The user picks nutrient `n` and the change handler runs. */
  function SelectNutrient(templates: map<string, seq<string>>, row: Row, n: string): (r: Partial<Row>)
    requires NutrientField in row
    ensures NutrientField in r.state && r.state[NutrientField].value == n
    ensures UnitField in row ==> UnitField in r.state
  {
    UpdateUnitRow(templates, row[NutrientField := row[NutrientField].(value := n)])
  }

  /** A series of nutrient picks, each handled in turn; a handler that throws
      does not stop the next event, which starts from the state left behind. */
  function SelectAll(templates: map<string, seq<string>>, row: Row, picks: seq<string>): (r: Row)
    requires NutrientField in row
    ensures NutrientField in r
    ensures UnitField in row ==> UnitField in r
    decreases |picks|
  {
    if picks == [] then row
    else SelectAll(templates, SelectNutrient(templates, row, picks[0]).state, picks[1..])
  }

  /** Path independence: however the user toggles the nutrient, the unit
      select ends as if only the last pick had been made. */
  lemma {:induction false} PathIndependent(templates: map<string, seq<string>>, row: Row, picks: seq<string>)
    requires EnergyTemplateId in templates && AmountRatioTemplateId in templates
    requires NutrientField in row && UnitField in row
    requires |picks| > 0
    ensures SelectAll(templates, row, picks)[UnitField]
            == SelectNutrient(templates, row, picks[|picks| - 1]).state[UnitField]
  {
    var next := SelectNutrient(templates, row, picks[0]).state;
    if |picks| == 1 {
      assert SelectAll(templates, next, picks[1..]) == next;
    } else {
      PathIndependent(templates, next, picks[1..]);
      assert picks[1..][|picks[1..]| - 1] == picks[|picks| - 1];
      var last := picks[|picks| - 1];
      var r1 := next[NutrientField := next[NutrientField].(value := last)];
      var r2 := row[NutrientField := row[NutrientField].(value := last)];
      DependsOnlyOnNutrient(templates, r1, r2);
    }
  }
}
